=== FILE: README.md ===
# bevy_nokhwa: the capture-to-background pipeline, modelled in Dafny

bevy_nokhwa shows a live camera feed as the background of a Bevy scene. A
`BackgroundCamera` component opens a camera through the nokhwa library. It owns
two channels. An unbounded frame channel carries decoded RGBA frames to the
engine. A capacity-1 operation channel carries control changes (exposure, gain,
...) to a worker thread that owns the camera. Once per tick,
`handle_background_image` drains every camera's frame channel into the shared
`BackgroundImage` resource. In the render world, a `BackgroundNode` creates its
GPU buffers lazily, uploads the image into a fresh texture and bind group, and
draws a full-screen quad. In the 2D render graph the node runs before the main
pass; in the 3D graph it runs before the main transparent pass.

The model has five modules:

- `Wrappers` (`wrappers.dfy`): `Option`, `Result` and `Last` (`Iterator::last`).
- `Pixels` (`pixels.dfy`): the machine integer types, `RgbaImage` with its
  four-bytes-per-pixel invariant, the initial 640 x 480 image, and `u32`
  wrapping multiplication.
- `Channels` (`channels.dfy`): a flume channel as one class whose `queue` field
  holds the messages in flight. It has unbounded and bounded constructors and
  `send`, `try_send`, `try_recv` and `drain`.
- `Camera` (`camera.dfy`): device and format selection, the `controls` store
  and its typed accessors, the camera's control application, one worker
  iteration and the frame callback.
- `Background` (`background.dfy`): the quad, the upload layout, the
  `BackgroundNode` state machine and frame coalescing.

GPU objects are opaque handles. The `RenderDevice` hands out a new handle for
each object it creates. The results of these camera library calls are
parameters:

- what `query(api)` enumerated;
- what opening the stream and listing the controls return;
- what the decoder produced;
- whether `last_frame` succeeded.

One library call is modelled by a fixed rule rather than a parameter.
`set_camera_control` is `ApplyControl`: it accepts every value of the entry's
kind, and refuses only an unknown control or a value of another kind. The
`ApplyControl` line under "## Left out" says what this does not capture.

A few behaviours a reader might expect are not what the code does, and the
model follows the code:

- One might expect the texture to be rebuilt only when the image's dimensions
  change. Instead, `update` builds a new texture, sampler, layout and bind
  group on every call where the image resource exists.
- One might expect a refused control value to be skipped. Instead,
  `set_camera_control(..).expect(..)` panics, and that ends the worker.
- Frames reach the frame channel through the callback handed to
  `CallbackCamera`. The worker loop calls `last_frame()` and discards its
  result, and a failure there panics.
- An empty device enumeration panics (`"camera not exist"`) even when an
  explicit index was given.

## Model

| member | source | states |
|---|---|---|
| `Pixels.InitialBackgroundImage` | src/lib.rs:22 | the image installed before any frame is a well-formed 640 x 480 RGBA image |
| `Pixels.WrappingMulU32` | src/background.rs:262 | a `u32` product is the true product reduced modulo 2^32 (release-build wrap-around), so it equals the true product exactly when that fits in 32 bits |
| `Wrappers.Last` | src/background.rs:364 | `drain().last()` is `None` exactly on an empty drain, else the newest frame |
| `Channels.Channel.Unbounded` | src/camera.rs:44 | a new unbounded channel is empty and has no capacity limit |
| `Channels.Channel.Bounded` | src/camera.rs:45 | a new `bounded(n)` channel is empty and holds at most `n` messages |
| `Channels.Channel.Send` | src/camera.rs:59 | sending on the unbounded frame channel appends the frame and never rejects it |
| `Channels.Channel.TrySend` | examples/setting.rs:73 | `try_send` enqueues exactly when the channel has room, otherwise drops the message and leaves the queue as it was |
| `Channels.Channel.TryRecv` | src/camera.rs:71 | `try_recv` returns the oldest message and removes only it, or `None` on an empty queue |
| `Channels.Channel.Drain` | src/background.rs:364 | `drain` returns every pending message in order and leaves the channel empty |
| `Camera.Configure` | src/camera.rs:42-55 | an enumeration error is returned. An empty enumeration panics, index or not. An explicit index is used as is, with the first enumerated device as the default. The format request defaults to `AbsoluteHighestFrameRate`, decoded to RGB |
| `Camera.CameraControl.Value` | src/camera.rs:94 | `control.value()` is a setter of the kind the control is described with |
| `Camera.DeriveControls` | src/camera.rs:91-97 | `controls` has exactly the keys of `known_controls`, each holding that control's current value |
| `Camera.DerivedControlsAgree` | src/camera.rs:91-97 | each derived entry has the kind (integer, float, boolean, other) of its control's description |
| `Camera.BoolControl` | src/camera.rs:107-113 | a value is exposed iff the id is in `controls` and its setter is `Boolean`, and it is that setter's payload |
| `Camera.I64Control` | src/camera.rs:115-121 | a value is exposed iff the stored setter is `Integer`, and it is that payload |
| `Camera.F64Control` | src/camera.rs:123-129 | a value is exposed iff the stored setter is `Float`, and it is that payload |
| `Camera.AccessorsFollowDescriptions` | src/camera.rs:107-129 | in a store that agrees with the descriptions, the bool, i64 and f64 accessors return a handle exactly for the controls described with that kind, so the settings panel's `unwrap()` on them cannot fail |
| `Camera.WriteKeepsShape` | src/camera.rs:107-129 | a write through an accessor's handle keeps the key set, the entry's kind and every other entry, and keeps the store in agreement with the descriptions |
| `Camera.ApplyControl` | src/camera.rs:75-77 | the camera stores a new value iff the control is known and the value has its kind. Otherwise it refuses with `UnsupportedControl` or `InvalidValue` and changes nothing |
| `Camera.CallbackCamera.constructor` | src/camera.rs:62 | the opened camera starts with the given control values |
| `Camera.CallbackCamera.SetCameraControl` | src/camera.rs:75-77 | `set_camera_control` succeeds exactly when `ApplyControl` does, and changes the camera's values as `ApplyControl` says |
| `Camera.CaptureWorker.constructor` | src/camera.rs:68 | the spawned worker owns the operation receiver and the camera, and is running |
| `Camera.CaptureWorker.Step` | src/camera.rs:70-82 | one iteration consumes at most one pending operation and applies it before the frame is pulled. A refused control ends the worker before the pull, and a failed pull ends it too |
| `Camera.FrameCallback` | src/camera.rs:57-60 | a decoded frame is appended to the frame channel. A failed decode panics on `unwrap()` before anything is sent, and the channel is unchanged |
| `Camera.BackgroundCamera.constructor` | src/camera.rs:99-104 | the component holds the two channels, `known_controls`, and `controls` derived from them. The operation channel has capacity 1 |
| `Camera.BackgroundCamera.GetMutBoolControl` | src/camera.rs:107-113 | reads exactly what `BoolControl` exposes for the component's current store |
| `Camera.BackgroundCamera.GetMutI64Control` | src/camera.rs:115-121 | reads exactly what `I64Control` exposes for the component's current store |
| `Camera.BackgroundCamera.GetMutF64Control` | src/camera.rs:123-129 | reads exactly what `F64Control` exposes for the component's current store |
| `Camera.BackgroundCamera.WriteBool` | src/camera.rs:107-113 | writing through the bool handle replaces only that entry's payload and keeps the component's invariant |
| `Camera.BackgroundCamera.WriteI64` | src/camera.rs:115-121 | writing through the i64 handle replaces only that entry's payload and keeps the component's invariant |
| `Camera.BackgroundCamera.WriteF64` | src/camera.rs:123-129 | writing through the f64 handle replaces only that entry's payload and keeps the component's invariant |
| `Camera.BackgroundCamera.RequestControl` | examples/setting.rs:73-76 | the panel's `try_send` of an entry's current value is queued iff no operation is pending, so at most one operation ever waits |
| `Camera.New` | src/camera.rs:34-105 | construction returns the enumeration error, or panics on an empty enumeration or a failed open. Otherwise it yields fresh empty channels (the operation channel has capacity 1), `controls` derived from the camera's known controls, and a running worker sharing the operation channel |
| `Camera.ApplyControlKeepsAgreement` | src/camera.rs:75-77 | a value the camera accepts keeps its values in agreement with the control descriptions |
| `Camera.ControlRoundTrip` | src/camera.rs:71-78 | a value written through the bool, i64 or f64 handle of its kind and requested while the queue is idle reaches the camera after one worker iteration. The camera accepts it, because `ApplyControl` takes every value of the entry's kind. The panel's store and the camera then hold the same new entry and the queue is empty. The worker still runs exactly when that iteration's frame pull succeeds |
| `Background.Triangles` | src/background.rs:75 | an index list read as a triangle list gives one triangle per three indices, in order |
| `Background.CastU16s` | src/background.rs:221 | the index bytes are two per `u16` |
| `Background.ReadU16s` | src/background.rs:349 | reading a buffer as `Uint16` gives one index per two bytes |
| `Background.IndexBytesRoundTrip` | src/background.rs:219-224 | the uploaded index bytes read back as `Uint16` give `INDICES` exactly |
| `Background.NonZeroU32` | src/background.rs:262-263 | `NonZeroU32::new` is `None` exactly for zero |
| `Background.UploadLayout` | src/background.rs:260-264 | the upload has offset 0 and `rows_per_image` = height (absent for height 0). `bytes_per_row` = 4 x width (absent for width 0) whenever 4 x width fits in `u32`. For any width it is 4 x width modulo 2^32, absent exactly when the width is a multiple of 2^30 |
| `Background.TextureExtent` | src/background.rs:237-241 | the texture has the image's width and height and one layer, and for a well-formed image width x height x layers x 4 bytes is the image's buffer |
| `Background.ImageTexture` | src/background.rs:242-250 | the texture has the image's width and height, one layer, one mip level and one sample, and may be both sampled and copied into |
| `Background.EdgeSampler` | src/background.rs:269-277 | the sampler clamps to the edge, magnifies linearly, and minifies and mip-maps with nearest filtering |
| `Background.IndexBuffer` | src/background.rs:218-225 | the index buffer holds two bytes per index, which read back as `Uint16` are exactly `INDICES` |
| `Background.VertexBuffer` | src/background.rs:226-233 | the vertex buffer holds the 4 corners, enough for every index in `INDICES` |
| `Background.BackgroundPass` | src/background.rs:329-351 | the pass loads and stores the target's colour, and binds the pipeline, the bind group at 0, the vertex buffer at 0 and the `Uint16` index buffer before one draw of all 6 indices and one instance |
| `Background.UploadCoversImage` | src/background.rs:235-265 | for a non-empty image the texture extent is width x height x 1, and rows of 4 x width bytes times height rows span exactly the image's pixel buffer |
| `Background.RenderDevice.Create` | src/background.rs:242-250 | every created GPU object gets a handle never issued before |
| `Background.RenderQueue.WriteTexture` | src/background.rs:252-266 | a texture write is appended to the queue's submitted writes |
| `Background.BackgroundPassDrawsQuad` | src/background.rs:338-351 | the draw covers the whole bound index buffer. Every index read is below the bound vertex buffer's 4 vertices, and the 6 indices form the 2 triangles (0,1,2) and (2,1,3) |
| `Background.BackgroundNode.constructor` | src/background.rs:196-204 | a new node has no vertex buffer, no index buffer and no bind group |
| `Background.BackgroundNode.Update` | src/background.rs:212-319 | with no image resource nothing changes. With one, each buffer is created only while its slot is `None` and is never replaced afterwards. A new texture of the image's size and a new bind group are created on every call. The image bytes are written with the packed layout. The three slots stay all-present or all-absent |
| `Background.BackgroundNode.Run` | src/background.rs:321-356 | a missing pipeline resource panics when there is a view target. Otherwise, when both buffers exist, one pass per target binds the pipeline, the bind group (whose unwrap cannot fail), both buffers and draws 6 indices; with either buffer absent nothing is drawn |
| `Background.BackgroundImage.constructor` | src/lib.rs:22 | the resource starts as the blank 640 x 480 image |
| `Background.Latest` | src/background.rs:359-368 | the image after a tick is either the previous image or one of the pending frames |
| `Background.LatestIsLastPending` | src/background.rs:363-366 | the image after a tick is the last of all pending frames in camera and arrival order, or the previous image when none was pending |
| `Background.LatestUnchangedWhenIdle` | src/background.rs:364 | with every queue empty the image is left exactly as it was |
| `Background.LatestFromLastActiveCamera` | src/background.rs:363-366 | the image ends as the newest frame of the last camera, in iteration order, that had pending frames |
| `Background.DrainInto` | src/background.rs:364-366 | for one camera, the `while let` loop leaves its channel empty and the image as the newest pending frame, or unchanged when none was pending (the second drain always ends the loop) |
| `Background.HandleBackgroundImage` | src/background.rs:359-368 | after the tick the image is `Latest` of the previous image and the pending queues, and every camera's frame queue is empty |

## Left out

- `BackgroundPipeline::from_world`, the shader, the bind-group layout entries,
  multisampling, blending and the render-pass descriptor are wgpu calls. Only
  the pipeline's presence and opaque handles are kept.
- `Vertex::desc` and the vertices' `f32` positions and texture coordinates are
  floating point and layout metadata. Only the vertex count (4) is kept.
- `BackgroundPassDriverNode`, render-graph wiring and plugin registration in
  `src/lib.rs` are engine glue. Only the initial 640 x 480 image is used.
- Threads, the channels' concurrency and channel disconnection are left out.
  The worker is one sequential step, and a send whose receiver is gone is not
  modelled.
- `nokhwa_initialize`, `query`, `CallbackCamera::new`,
  `camera_controls_known_camera_controls`, `open_stream`, `decode_image` and
  `last_frame` are library calls. Their results are parameters. The `api`
  backend selector is folded into the enumeration result.
- ApplyControl: a camera may also refuse a value of the right kind (for
  example, out of its range). The model only refuses unknown controls and
  mismatched kinds.
- `f64` control payloads are opaque 64-bit patterns. Setter kinds other than
  integer, float and boolean are one `Other` variant.
- `KnownCameraControl`'s ordering in the `BTreeMap` only affects iteration
  order, which nothing in the core depends on.
- `println!` logging is left out.
- `examples/setting.rs` (egui panel) and `examples/native.rs` are left out,
  apart from the `try_send` pattern used by `RequestControl` and
  `ControlRoundTrip`.
- `BackgroundCamera::auto` is `new(Auto, None, None)`. Both defaults are
  covered by `Configure`.
- `RenderDevice` and `RenderQueue` are always present in the render world and
  are passed in. The `unwrap()`s on them and GPU resource-creation failures are
  not modelled.
- `self.query.update_archetypes` and the query iteration are replaced by a
  sequence of view targets.
- `4 * dimensions.0` panics on overflow in a debug build. The model uses the
  release build's wrap-around.

=== FILE: background.dfy ===
/** The render side: the fixed background quad, the texture upload layout, the
    `BackgroundNode` with its three lazily filled resource slots, and the
    per-tick coalescing of camera frames into the shared background image.
    GPU objects are opaque handles: a number the render device hands out once. */
module Background {
  import opened Wrappers
  import opened Pixels
  import opened Channels
  import Camera

  // ---------------------------------------------------------------------------
  // The quad

  /** `VERTICES` holds four corners; their float positions and texture
      coordinates are not modelled, only how many there are. */
  const VERTEX_COUNT: nat := 4

  /** `INDICES`: two triangles over the four corners. */
  const INDICES: seq<u16> := [0, 1, 2, 2, 1, 3]

  datatype Triangle = Triangle(a: nat, b: nat, c: nat)

  /** A triangle list, as the pipeline's `TriangleList` topology reads an index list. */
  function Triangles(ix: seq<u16>): (ts: seq<Triangle>)
    requires |ix| % 3 == 0
    ensures 3 * |ts| == |ix|
    ensures forall t :: 0 <= t < |ts| ==> ts[t] == Triangle(ix[3 * t], ix[3 * t + 1], ix[3 * t + 2])
  {
    if ix == [] then [] else [Triangle(ix[0], ix[1], ix[2])] + Triangles(ix[3..])
  }

  /** `bytemuck::cast_slice` of a `u16` slice: two little-endian bytes each. */
  function CastU16s(s: seq<u16>): (b: seq<byte>)
    ensures |b| == 2 * |s|
  {
    if s == [] then [] else [s[0] % 0x100, s[0] / 0x100] + CastU16s(s[1..])
  }

  /** How the GPU reads an index buffer bound with `IndexFormat::Uint16`. */
  function ReadU16s(b: seq<byte>): (s: seq<u16>)
    requires |b| % 2 == 0
    ensures 2 * |s| == |b|
  {
    if b == [] then [] else [(b[0] as int) + 0x100 * (b[1] as int)] + ReadU16s(b[2..])
  }

  lemma {:induction false} IndexBytesRoundTrip(s: seq<u16>)
    ensures ReadU16s(CastU16s(s)) == s
  {
    if s != [] {
      var b := CastU16s(s);
      assert b[2..] == CastU16s(s[1..]);
      IndexBytesRoundTrip(s[1..]);
    }
  }

  // ---------------------------------------------------------------------------
  // The texture upload

  datatype Extent3d = Extent3d(width: u32, height: u32, depthOrArrayLayers: u32)

  datatype ImageDataLayout = ImageDataLayout(offset: nat, bytesPerRow: Option<u32>, rowsPerImage: Option<u32>)

  /** `NonZeroU32::new`. */
  function NonZeroU32(x: u32): (r: Option<u32>)
    ensures r.None? <==> x == 0
    ensures r.Some? ==> r.value == x
  {
    if x == 0 then None else Some(x)
  }

  /** The texture size `update` derives from the image: a single 2D layer. */
  function TextureExtent(img: RgbaImage): (e: Extent3d)
    ensures e.width == img.width && e.height == img.height && e.depthOrArrayLayers == 1
    ensures WellFormed(img) ==> CHANNELS * e.width * e.height * e.depthOrArrayLayers == |img.data|
  {
    Extent3d(img.width, img.height, 1)
  }

  /** The layout `update` passes to `write_texture`: rows packed at four bytes
      per pixel (the product taken in `u32`), as many rows as the image has. */
  function UploadLayout(img: RgbaImage): (l: ImageDataLayout)
    ensures l.offset == 0
    ensures l.rowsPerImage.Some? <==> img.height > 0
    ensures l.rowsPerImage.Some? ==> l.rowsPerImage.value == img.height
    ensures img.width < 0x4000_0000 ==> (l.bytesPerRow.Some? <==> img.width > 0)
    ensures img.width < 0x4000_0000 && l.bytesPerRow.Some? ==> l.bytesPerRow.value == CHANNELS * img.width
    // past 2^30 the stride wraps: it is 4 x width modulo 2^32, and it is
    // missing altogether when that wraps to zero
    ensures l.bytesPerRow.Some? ==> (CHANNELS * img.width - l.bytesPerRow.value) % U32_MODULUS == 0
    ensures l.bytesPerRow.None? <==> img.width % 0x4000_0000 == 0
  {
    ImageDataLayout(0, NonZeroU32(WrappingMulU32(4, img.width)), NonZeroU32(img.height))
  }

  /** For a non-empty image, the upload describes exactly the image's bytes:
      width x height texels in one layer, rows of 4 x width bytes, and as many
      rows as the image is high, which together span the whole pixel buffer. */
  lemma UploadCoversImage(img: RgbaImage)
    requires WellFormed(img)
    requires 0 < img.width < 0x4000_0000 && 0 < img.height
    ensures TextureExtent(img) == Extent3d(img.width, img.height, 1)
    ensures UploadLayout(img).bytesPerRow == Some(CHANNELS * img.width)
    ensures UploadLayout(img).rowsPerImage == Some(img.height)
    ensures UploadLayout(img).bytesPerRow.value * UploadLayout(img).rowsPerImage.value
              * TextureExtent(img).depthOrArrayLayers == |img.data|
  {
  }

  // ---------------------------------------------------------------------------
  // GPU objects

  datatype BufferUsage = IndexUsage | VertexUsage
  datatype BufferContents = IndexData(bytes: seq<byte>) | VertexData(vertexCount: nat)
  datatype Buffer = Buffer(handle: nat, usage: BufferUsage, contents: BufferContents)

  datatype TextureFormat = Rgba8UnormSrgb
  datatype TextureUsage = TextureBinding | CopyDst
  datatype Texture = Texture(
    handle: nat, size: Extent3d, mipLevelCount: nat, sampleCount: nat,
    format: TextureFormat, usage: set<TextureUsage>)

  datatype AddressMode = ClampToEdge
  datatype FilterMode = Linear | Nearest
  datatype Sampler = Sampler(
    handle: nat, addressMode: AddressMode,
    magFilter: FilterMode, minFilter: FilterMode, mipmapFilter: FilterMode)

  /** A bind group: binding 0 is a view of `texture`, binding 1 is `sampler`. */
  datatype BindGroup = BindGroup(handle: nat, layout: nat, texture: Texture, sampler: Sampler)

  datatype TextureWrite = TextureWrite(texture: nat, mipLevel: nat, data: seq<byte>, layout: ImageDataLayout, size: Extent3d)

  /** The index buffer `update` creates: `INDICES` as bytes. */
  function IndexBuffer(handle: nat): (b: Buffer)
    ensures b.handle == handle && b.usage == IndexUsage && b.contents.IndexData?
    ensures |b.contents.bytes| == 2 * |INDICES|
    ensures ReadU16s(b.contents.bytes) == INDICES
  {
    IndexBytesRoundTrip(INDICES);
    Buffer(handle, IndexUsage, IndexData(CastU16s(INDICES)))
  }

  /** The vertex buffer `update` creates: the four corners. */
  function VertexBuffer(handle: nat): (b: Buffer)
    ensures b.handle == handle && b.usage == VertexUsage && b.contents.VertexData?
    ensures b.contents.vertexCount == VERTEX_COUNT
    ensures forall j :: 0 <= j < |INDICES| ==> INDICES[j] < b.contents.vertexCount
  {
    Buffer(handle, VertexUsage, VertexData(VERTEX_COUNT))
  }

  /** The texture `update` creates for an image: its size, one mip level, one
      sample, sRGB RGBA8, usable for sampling and as a copy destination. */
  function ImageTexture(handle: nat, img: RgbaImage): (t: Texture)
    ensures t.handle == handle
    ensures t.size.width == img.width && t.size.height == img.height && t.size.depthOrArrayLayers == 1
    // a single mip level and sample, and the two usages the node needs:
    // a copy destination for the upload and a binding for the shader
    ensures t.mipLevelCount == 1 && t.sampleCount == 1
    ensures TextureBinding in t.usage && CopyDst in t.usage
  {
    Texture(handle, TextureExtent(img), 1, 1, Rgba8UnormSrgb, {TextureBinding, CopyDst})
  }

  /** The sampler `update` creates: clamp to edge, linear magnification, nearest otherwise. */
  function EdgeSampler(handle: nat): (s: Sampler)
    ensures s.handle == handle && s.addressMode == ClampToEdge
    ensures s.magFilter == Linear && s.minFilter == Nearest && s.mipmapFilter == Nearest
  {
    Sampler(handle, ClampToEdge, Linear, Nearest, Nearest)
  }

  /** The render device, as far as it matters here: every object it creates gets
      a handle never issued before. */
  class RenderDevice {
    var issued: nat

    constructor ()
      ensures issued == 0
    {
      issued := 0;
    }

    method Create() returns (handle: nat)
      modifies this
      ensures handle == old(issued) && issued == old(issued) + 1
    {
      handle := issued;
      issued := issued + 1;
    }
  }

  /** The render queue: the texture writes submitted so far, in order. */
  class RenderQueue {
    var writes: seq<TextureWrite>

    constructor ()
      ensures writes == []
    {
      writes := [];
    }

    method WriteTexture(w: TextureWrite)
      modifies this
      ensures writes == old(writes) + [w]
    {
      writes := writes + [w];
    }
  }

  // ---------------------------------------------------------------------------
  // The render node

  datatype ViewTarget = ViewTarget(id: nat)
  datatype IndexFormat = Uint16

  datatype RenderCommand =
    | SetPipeline(pipeline: nat)
    | SetBindGroup(slot: nat, group: BindGroup)
    | SetVertexBuffer(vertexSlot: nat, vertexBuffer: Buffer)
    | SetIndexBuffer(indexBuffer: Buffer, format: IndexFormat)
    | DrawIndexed(firstIndex: nat, indexCount: nat, baseVertex: int, firstInstance: nat, instanceCount: nat)

  /** A render pass onto a view target; it loads and stores the target's colour. */
  datatype RenderPass = RenderPass(target: ViewTarget, load: bool, store: bool, commands: seq<RenderCommand>)

  /** How `run` ends: the passes it encoded, or the panic of `unwrap()` on a
      missing `BackgroundPipeline` resource. */
  datatype RunResult = Ran(passes: seq<RenderPass>) | PipelineMissing

  /** The pass `run` encodes for one view target. */
  function BackgroundPass(target: ViewTarget, pipeline: nat, vb: Buffer, ib: Buffer, bg: BindGroup): (p: RenderPass)
    ensures p.target == target && p.load && p.store
    // the pipeline, bind group and buffers are bound before the one draw
    ensures |p.commands| == 5 && p.commands[4].DrawIndexed?
    ensures p.commands[..4] == [SetPipeline(pipeline), SetBindGroup(0, bg), SetVertexBuffer(0, vb), SetIndexBuffer(ib, Uint16)]
    ensures p.commands[4].indexCount == |INDICES| && p.commands[4].instanceCount == 1
  {
    RenderPass(target, true, true, [
      SetPipeline(pipeline),
      SetBindGroup(0, bg),
      SetVertexBuffer(0, vb),
      SetIndexBuffer(ib, Uint16),
      DrawIndexed(0, |INDICES|, 0, 0, 1)
    ])
  }

  /** The draw of a background pass reads the whole index buffer it binds,
      every index read names one of the bound vertex buffer's corners, and the
      indices form two triangles. */
  lemma BackgroundPassDrawsQuad(target: ViewTarget, pipeline: nat, vb: Buffer, ib: Buffer, bg: BindGroup)
    requires ib == IndexBuffer(ib.handle) && vb == VertexBuffer(vb.handle)
    ensures var cmds := BackgroundPass(target, pipeline, vb, ib, bg).commands;
      && cmds[2] == SetVertexBuffer(0, vb)
      && cmds[3] == SetIndexBuffer(ib, Uint16)
      && cmds[4].DrawIndexed? && cmds[4].instanceCount == 1
      && var ix := ReadU16s(ib.contents.bytes);
      && cmds[4].firstIndex == 0 && cmds[4].indexCount == |ix|
      && (forall j :: 0 <= j < |ix| ==> ix[j] < vb.contents.vertexCount)
      && Triangles(ix) == [Triangle(0, 1, 2), Triangle(2, 1, 3)]
  {
    IndexBytesRoundTrip(INDICES);
    assert ReadU16s(ib.contents.bytes) == INDICES;
    var ts := Triangles(INDICES);
    assert ts[0] == Triangle(0, 1, 2) && ts[1] == Triangle(2, 1, 3);
  }

  class BackgroundNode {
    var vertexBuffer: Option<Buffer>
    var indexBuffer: Option<Buffer>
    var diffuseBindGroup: Option<BindGroup>

    /** The three slots are filled together or not at all, and the buffers hold
        the quad. */
    ghost predicate Valid()
      reads this
    {
      && (indexBuffer.Some? <==> vertexBuffer.Some?)
      && (vertexBuffer.Some? <==> diffuseBindGroup.Some?)
      && (indexBuffer.Some? ==> indexBuffer.value == IndexBuffer(indexBuffer.value.handle))
      && (vertexBuffer.Some? ==> vertexBuffer.value == VertexBuffer(vertexBuffer.value.handle))
    }

    /** Every handle the node holds was issued by `device`. */
    ghost predicate IssuedBy(device: RenderDevice)
      reads this, device
    {
      && (indexBuffer.Some? ==> indexBuffer.value.handle < device.issued)
      && (vertexBuffer.Some? ==> vertexBuffer.value.handle < device.issued)
      && (diffuseBindGroup.Some? ==> diffuseBindGroup.value.handle < device.issued)
    }

    /** `BackgroundNode::new`: nothing created yet. */
    constructor ()
      ensures Valid()
      ensures vertexBuffer == None && indexBuffer == None && diffuseBindGroup == None
    {
      vertexBuffer, indexBuffer, diffuseBindGroup := None, None, None;
    }

    /** `update`. Without a background image nothing happens. With one, each
        buffer is created if its slot is empty and kept otherwise, and a new
        texture, sampler, layout and bind group are created on every call; the
        image's bytes are written into the new texture. */
    method Update(background: Option<RgbaImage>, device: RenderDevice, queue: RenderQueue)
      requires Valid() && IssuedBy(device)
      modifies this, device, queue
      ensures Valid() && IssuedBy(device)
      ensures background.None? ==>
        && vertexBuffer == old(vertexBuffer) && indexBuffer == old(indexBuffer)
        && diffuseBindGroup == old(diffuseBindGroup)
        && device.issued == old(device.issued) && queue.writes == old(queue.writes)
      ensures background.Some? ==>
        var img := background.value;
        // buffers: created once, never replaced
        && indexBuffer.Some? && vertexBuffer.Some?
        && (old(indexBuffer).Some? ==> indexBuffer == old(indexBuffer))
        && (old(vertexBuffer).Some? ==> vertexBuffer == old(vertexBuffer))
        && (old(indexBuffer).None? ==> indexBuffer.value.handle >= old(device.issued))
        && (old(vertexBuffer).None? ==> vertexBuffer.value.handle >= old(device.issued))
        // bind group: always present afterwards, always a new one
        && diffuseBindGroup.Some?
        && var bg := diffuseBindGroup.value;
        && bg.handle >= old(device.issued)
        && (old(diffuseBindGroup).Some? ==> bg.handle != old(diffuseBindGroup).value.handle)
        && bg.texture == ImageTexture(bg.texture.handle, img)
        && bg.texture.handle >= old(device.issued)
        && bg.sampler == EdgeSampler(bg.sampler.handle)
        // the image's bytes go to the new texture with the packed layout
        && queue.writes == old(queue.writes)
             + [TextureWrite(bg.texture.handle, 0, img.data, UploadLayout(img), TextureExtent(img))]
    {
      if background.None? {
        return;
      }
      var img := background.value;
      if indexBuffer.None? {
        var h := device.Create();
        indexBuffer := Some(IndexBuffer(h));
      }
      if vertexBuffer.None? {
        var h := device.Create();
        vertexBuffer := Some(VertexBuffer(h));
      }
      var size := TextureExtent(img);
      var th := device.Create();
      var texture := ImageTexture(th, img);
      queue.WriteTexture(TextureWrite(texture.handle, 0, img.data, UploadLayout(img), size));
      var sh := device.Create();
      var sampler := EdgeSampler(sh);
      var layout := device.Create();
      var bh := device.Create();
      diffuseBindGroup := Some(BindGroup(bh, layout, texture, sampler));
    }

    /** `run`: for each view target, take the pipeline (its absence panics) and,
        only when both buffers exist, encode a pass that binds the bind group
        (which is then always present) and draws the quad. */
    method Run(targets: seq<ViewTarget>, pipeline: Option<nat>) returns (r: RunResult)
      requires Valid()
      ensures r.PipelineMissing? <==> targets != [] && pipeline.None?
      ensures r.Ran? && (vertexBuffer.None? || indexBuffer.None?) ==> r.passes == []
      ensures r.Ran? && vertexBuffer.Some? && indexBuffer.Some? ==>
        && |r.passes| == |targets|
        && forall i :: 0 <= i < |targets| ==>
             r.passes[i] == BackgroundPass(targets[i], pipeline.value, vertexBuffer.value,
                                           indexBuffer.value, diffuseBindGroup.value)
    {
      var passes: seq<RenderPass> := [];
      for i := 0 to |targets|
        invariant pipeline.None? ==> i == 0
        invariant (vertexBuffer.None? || indexBuffer.None?) ==> passes == []
        invariant vertexBuffer.Some? && indexBuffer.Some? ==>
          && |passes| == i
          && forall k :: 0 <= k < i ==>
               passes[k] == BackgroundPass(targets[k], pipeline.value, vertexBuffer.value,
                                           indexBuffer.value, diffuseBindGroup.value)
      {
        if pipeline.None? {
          return PipelineMissing;
        }
        if vertexBuffer.Some? && indexBuffer.Some? {
          var pass := BackgroundPass(targets[i], pipeline.value, vertexBuffer.value,
                                     indexBuffer.value, diffuseBindGroup.value);
          passes := passes + [pass];
        }
      }
      r := Ran(passes);
    }
  }

  // ---------------------------------------------------------------------------
  // Frame coalescing

  /** The `BackgroundImage` resource: the frame the render side shows. */
  class BackgroundImage {
    var image: RgbaImage

    /** The plugin installs a blank 640 x 480 image before any frame arrives. */
    constructor ()
      ensures image == InitialBackgroundImage()
    {
      image := InitialBackgroundImage();
    }
  }

  /** The image after one tick, given the frames pending on each camera's
      channel in iteration order: each camera with pending frames overwrites
      it with its newest one. */
  function Latest(current: RgbaImage, queues: seq<seq<RgbaImage>>): (r: RgbaImage)
    ensures r == current || exists i, j :: 0 <= i < |queues| && 0 <= j < |queues[i]| && r == queues[i][j]
    decreases |queues|
  {
    if queues == [] then current
    else
      var before := Latest(current, queues[..|queues| - 1]);
      var q := queues[|queues| - 1];
      if q == [] then before else q[|q| - 1]
  }

  /** All pending frames, camera after camera, each channel in arrival order. */
  function Flatten(queues: seq<seq<RgbaImage>>): (all: seq<RgbaImage>)
    decreases |queues|
  {
    if queues == [] then [] else Flatten(queues[..|queues| - 1]) + queues[|queues| - 1]
  }

  /** The tick keeps the last frame of all those pending, and the image is
      untouched when none was pending. */
  lemma {:induction false} LatestIsLastPending(current: RgbaImage, queues: seq<seq<RgbaImage>>)
    ensures var all := Flatten(queues);
      Latest(current, queues) == if all == [] then current else all[|all| - 1]
    decreases |queues|
  {
    if queues != [] {
      LatestIsLastPending(current, queues[..|queues| - 1]);
    }
  }

  /** With no frame pending anywhere, the image is left exactly as it was. */
  lemma {:induction false} LatestUnchangedWhenIdle(current: RgbaImage, queues: seq<seq<RgbaImage>>)
    requires forall i :: 0 <= i < |queues| ==> queues[i] == []
    ensures Latest(current, queues) == current
    decreases |queues|
  {
    if queues != [] {
      LatestUnchangedWhenIdle(current, queues[..|queues| - 1]);
    }
  }

  /** The image ends as the newest frame of the last camera, in iteration
      order, that had frames pending. */
  lemma {:induction false} LatestFromLastActiveCamera(current: RgbaImage, queues: seq<seq<RgbaImage>>, k: nat)
    requires k < |queues| && queues[k] != []
    requires forall j :: k < j < |queues| ==> queues[j] == []
    ensures Latest(current, queues) == queues[k][|queues[k]| - 1]
    decreases |queues|
  {
    if k < |queues| - 1 {
      LatestFromLastActiveCamera(current, queues[..|queues| - 1], k);
    }
  }

  ghost function Receivers(cams: seq<Camera.BackgroundCamera>): set<Channel<RgbaImage>> {
    set c | c in cams :: c.imageRx
  }

  /** The frames pending on each camera's channel, in iteration order. */
  ghost function Pending(cams: seq<Camera.BackgroundCamera>): (qs: seq<seq<RgbaImage>>)
    reads Receivers(cams)
    ensures |qs| == |cams|
    ensures forall i :: 0 <= i < |cams| ==> qs[i] == cams[i].imageRx.queue
  {
    seq(|cams|, i reads Receivers(cams) requires 0 <= i < |cams| => cams[i].imageRx.queue)
  }

  /** The `while let` loop of `handle_background_image` for one camera: drain
      the channel and overwrite the image with the last frame drained, until a
      drain comes back empty (the second drain always does). */
  method DrainInto(rx: Channel<RgbaImage>, image: BackgroundImage)
    requires rx.Valid()
    modifies rx, image
    ensures rx.Valid() && rx.queue == []
    ensures image.image == Latest(old(image.image), [old(rx.queue)])
  {
    var drained := rx.Drain();
    var last := Last(drained);
    ghost var q := drained;
    ghost var before := old(image.image);
    while last.Some?
      invariant rx.Valid() && rx.queue == []
      invariant last == Last(drained)
      invariant drained == [] || drained == q
      invariant image.image == if drained == [] && q != [] then q[|q| - 1] else before
      decreases |drained|
    {
      image.image := last.value;
      drained := rx.Drain();
      last := Last(drained);
    }
    assert [q][..0] == [];
  }

  /** `handle_background_image`: each camera's channel in turn is drained into
      the image. */
  method HandleBackgroundImage(cams: seq<Camera.BackgroundCamera>, image: BackgroundImage)
    requires forall i :: 0 <= i < |cams| ==> cams[i].imageRx.Valid()
    requires forall i, j :: 0 <= i < j < |cams| ==> cams[i].imageRx != cams[j].imageRx
    modifies image, Receivers(cams)
    ensures image.image == Latest(old(image.image), old(Pending(cams)))
    ensures forall i :: 0 <= i < |cams| ==> cams[i].imageRx.queue == [] && cams[i].imageRx.Valid()
  {
    ghost var pending := Pending(cams);
    ghost var start := image.image;
    for i := 0 to |cams|
      invariant image.image == Latest(start, pending[..i])
      invariant forall j :: 0 <= j < i ==> cams[j].imageRx.queue == [] && cams[j].imageRx.Valid()
      invariant forall j :: i <= j < |cams| ==> cams[j].imageRx.queue == pending[j] && cams[j].imageRx.Valid()
    {
      ghost var before := image.image;
      DrainInto(cams[i].imageRx, image);
      assert pending[..i + 1][..i] == pending[..i];
      assert image.image == Latest(before, [pending[i]]);
    }
    assert pending[..|cams|] == pending;
  }
}

=== FILE: camera.dfy ===
/** The capture side: `BackgroundCamera` (construction, the control store and
    its typed accessors), the capacity-1 operation queue and one iteration of
    the capture worker. The camera library (nokhwa) is outside the model: what
    its calls return is passed in. */
module Camera {
  import opened Wrappers
  import opened Pixels
  import opened Channels

  type i64 = x: int | -0x8000_0000_0000_0000 <= x < 0x8000_0000_0000_0000

  /** An `f64` payload, kept opaque: only the fact that a control is a float matters. */
  datatype F64 = F64(bits: bv64)

  /** The control identifiers nokhwa knows by name, plus its `Other(u128)` escape. */
  datatype KnownCameraControl =
    | Brightness | Contrast | Hue | Saturation | Sharpness | Gamma | WhiteBalance
    | BacklightComp | Gain | Pan | Tilt | Zoom | Exposure | Iris | Focus
    | Other(code: nat)

  /** A new value for a control. Every kind the accessors do not hand out
      (strings, bytes, points, enums, colours, ...) is folded into `Other`. */
  datatype ControlValueSetter =
    | Integer(i: i64)
    | Float(f: F64)
    | Boolean(b: bool)
    | Other

  /** How the camera describes a control; the current value sits inside. */
  datatype ControlValueDescription =
    | IntegerValue(value: i64, default: i64, step: i64)
    | IntegerRange(min: i64, max: i64, value: i64, step: i64, default: i64)
    | FloatValue(fvalue: F64, fdefault: F64, fstep: F64)
    | FloatRange(fmin: F64, fmax: F64, fvalue: F64, fstep: F64, fdefault: F64)
    | BooleanValue(bvalue: bool, bdefault: bool)
    | OtherDescription

  datatype CameraControl = CameraControl(control: KnownCameraControl, description: ControlValueDescription)
  {
    /** `CameraControl::value`: the current value, as a setter of the description's kind. */
    function Value(): (v: ControlValueSetter)
      ensures KindOf(v) == DescribedKind(description)
    {
      match description
      case IntegerValue(v, _, _) => Integer(v)
      case IntegerRange(_, _, v, _, _) => Integer(v)
      case FloatValue(v, _, _) => Float(v)
      case FloatRange(_, _, v, _, _) => Float(v)
      case BooleanValue(v, _) => Boolean(v)
      case OtherDescription => ControlValueSetter.Other
    }
  }

  /** The kind of a control value, with the payload forgotten. */
  datatype Kind = IntegerKind | FloatKind | BooleanKind | OtherKind

  function KindOf(s: ControlValueSetter): Kind {
    match s
    case Integer(_) => IntegerKind
    case Float(_) => FloatKind
    case Boolean(_) => BooleanKind
    case Other => OtherKind
  }

  function DescribedKind(d: ControlValueDescription): Kind {
    match d
    case IntegerValue(_, _, _) | IntegerRange(_, _, _, _, _) => IntegerKind
    case FloatValue(_, _, _) | FloatRange(_, _, _, _, _) => FloatKind
    case BooleanValue(_, _) => BooleanKind
    case OtherDescription => OtherKind
  }

  /** The one message type of the operation queue. */
  datatype CameraOperation = Control(id: KnownCameraControl, control: ControlValueSetter)

  // ---------------------------------------------------------------------------
  // Construction: device and format selection

  datatype CameraIndex = Index(n: u32) | Named(name: string)

  /** One entry of the device enumeration. */
  datatype CameraInfo = CameraInfo(humanName: string, index: CameraIndex)

  datatype FrameFormat = MJPEG | YUYV | NV12 | GRAY | RAWRGB
  datatype CameraFormat = CameraFormat(width: u32, height: u32, format: FrameFormat, frameRate: u32)

  /** nokhwa's `RequestedFormatType`; its variant `None` is called `NoPreference` here. */
  datatype RequestedFormatType =
    | AbsoluteHighestResolution
    | AbsoluteHighestFrameRate
    | HighestResolution(width: u32, height: u32)
    | HighestFrameRate(fps: u32)
    | Exact(exact: CameraFormat)
    | Closest(closest: CameraFormat)
    | NoPreference

  /** The pixel format frames are decoded to before the format request is resolved. */
  datatype DecodeFormat = RgbFormat | RgbAFormat

  datatype RequestedFormat = RequestedFormat(decodeTo: DecodeFormat, request: RequestedFormatType)

  /** What `new` passes to the camera library: which device, which format. */
  datatype Setup = Setup(device: CameraIndex, format: RequestedFormat)

  /** How a call ends: a value, an error returned with `?`, or a panic. */
  datatype Outcome<+T> = Done(value: T) | Failed(error: string) | Panicked(message: string)

  const CAMERA_NOT_EXIST: string := "camera not exist"
  const CAMERA_ERROR: string := "camera error"
  const UNWRAP_ERR: string := "called `Result::unwrap()` on an `Err` value"

  /** The selection part of `BackgroundCamera::new`: the enumeration `query(api)`
      returned, the optional index and the optional format request resolve to a
      device and a format, or construction ends. */
  function Configure(
    query: Result<seq<CameraInfo>, string>,
    index: Option<CameraIndex>,
    request: Option<RequestedFormatType>
  ): (r: Outcome<Setup>)
    // an enumeration error is returned to the caller
    ensures r.Failed? <==> query.Err?
    ensures r.Failed? ==> r.error == query.error
    // an empty enumeration panics, even when an index is given
    ensures r.Panicked? <==> query.Ok? && query.value == []
    ensures r.Panicked? ==> r.message == CAMERA_NOT_EXIST
    // otherwise: an explicit index is used as is, else the first device's
    ensures r.Done? ==> r.value.device == (if index.Some? then index.value else query.value[0].index)
    // the format request defaults to the highest frame rate; frames decode to RGB
    ensures r.Done? ==> r.value.format.decodeTo == RgbFormat
    ensures r.Done? && request.Some? ==> r.value.format.request == request.value
    ensures r.Done? && request.None? ==> r.value.format.request == AbsoluteHighestFrameRate
  {
    match query
    case Err(e) => Failed(e)
    case Ok(cameras) =>
      if cameras == [] then Panicked(CAMERA_NOT_EXIST)
      else
        var format := RequestedFormat(RgbFormat, match request case Some(t) => t case None => AbsoluteHighestFrameRate);
        var device := match index case None => cameras[0].index case Some(i) => i;
        Done(Setup(device, format))
  }

  // ---------------------------------------------------------------------------
  // The control store

  /** `controls` as `new` builds it: one entry per known control, holding that
      control's current value. */
  function DeriveControls(known: map<KnownCameraControl, CameraControl>): (controls: map<KnownCameraControl, ControlValueSetter>)
    ensures controls.Keys == known.Keys
    ensures forall k :: k in controls ==> controls[k] == known[k].Value()
  {
    map k | k in known :: known[k].Value()
  }

  /** The store has the known controls' keys, and each entry keeps the kind its
      control is described with (only payloads change after construction). */
  ghost predicate KindsAgree(known: map<KnownCameraControl, CameraControl>, controls: map<KnownCameraControl, ControlValueSetter>) {
    && controls.Keys == known.Keys
    && forall k :: k in controls ==> KindOf(controls[k]) == DescribedKind(known[k].description)
  }

  /** What `get_mut_bool_control` exposes: the entry's payload when it is a boolean. */
  function BoolControl(controls: map<KnownCameraControl, ControlValueSetter>, id: KnownCameraControl): (r: Option<bool>)
    ensures r.Some? <==> id in controls && controls[id].Boolean?
    ensures r.Some? ==> controls[id] == Boolean(r.value)
  {
    if id in controls && controls[id].Boolean? then Some(controls[id].b) else None
  }

  /** What `get_mut_i64_control` exposes: the entry's payload when it is an integer. */
  function I64Control(controls: map<KnownCameraControl, ControlValueSetter>, id: KnownCameraControl): (r: Option<i64>)
    ensures r.Some? <==> id in controls && controls[id].Integer?
    ensures r.Some? ==> controls[id] == Integer(r.value)
  {
    if id in controls && controls[id].Integer? then Some(controls[id].i) else None
  }

  /** What `get_mut_f64_control` exposes: the entry's payload when it is a float. */
  function F64Control(controls: map<KnownCameraControl, ControlValueSetter>, id: KnownCameraControl): (r: Option<F64>)
    ensures r.Some? <==> id in controls && controls[id].Float?
    ensures r.Some? ==> controls[id] == Float(r.value)
  {
    if id in controls && controls[id].Float? then Some(controls[id].f) else None
  }

  /** A freshly derived store agrees with the descriptions it came from. */
  lemma DerivedControlsAgree(known: map<KnownCameraControl, CameraControl>)
    ensures KindsAgree(known, DeriveControls(known))
  {
  }

  /** In an agreeing store, each accessor hands out a value exactly for the
      controls described with its kind: the settings panel's `unwrap()` on the
      accessor matching a control's description cannot fail. */
  lemma AccessorsFollowDescriptions(
    known: map<KnownCameraControl, CameraControl>,
    controls: map<KnownCameraControl, ControlValueSetter>,
    id: KnownCameraControl)
    requires KindsAgree(known, controls)
    ensures BoolControl(controls, id).Some? <==> id in known && DescribedKind(known[id].description) == BooleanKind
    ensures I64Control(controls, id).Some? <==> id in known && DescribedKind(known[id].description) == IntegerKind
    ensures F64Control(controls, id).Some? <==> id in known && DescribedKind(known[id].description) == FloatKind
  {
  }

  /** A write through an accessor's handle changes only that entry's payload:
      the keys, the entry's kind and every other entry stay as they were. */
  lemma WriteKeepsShape(
    known: map<KnownCameraControl, CameraControl>,
    controls: map<KnownCameraControl, ControlValueSetter>,
    id: KnownCameraControl,
    v: ControlValueSetter)
    requires KindsAgree(known, controls)
    requires id in controls && KindOf(v) == KindOf(controls[id])
    ensures KindsAgree(known, controls[id := v])
    ensures controls[id := v].Keys == controls.Keys
    ensures forall k :: k in controls && k != id ==> controls[id := v][k] == controls[k]
  {
  }

  // ---------------------------------------------------------------------------
  // The camera device and the capture worker

  datatype NokhwaError = UnsupportedControl(id: KnownCameraControl) | InvalidValue(id: KnownCameraControl)

  /** What the camera library does with a new control value: an unknown control
      and a value of the wrong kind are refused; otherwise the value is stored. */
  function ApplyControl(values: map<KnownCameraControl, ControlValueSetter>, id: KnownCameraControl, v: ControlValueSetter)
    : (r: Result<map<KnownCameraControl, ControlValueSetter>, NokhwaError>)
    ensures r.Ok? <==> id in values && KindOf(values[id]) == KindOf(v)
    ensures r.Ok? ==> r.value == values[id := v]
    ensures r.Err? && id !in values ==> r.error == UnsupportedControl(id)
    ensures r.Err? && id in values ==> r.error == InvalidValue(id)
  {
    if id !in values then Err(UnsupportedControl(id))
    else if KindOf(values[id]) != KindOf(v) then Err(InvalidValue(id))
    else Ok(values[id := v])
  }

  /** A value the camera accepts has the kind of the entry it replaces, so a
      camera whose values agree with the descriptions keeps agreeing. */
  lemma {:induction false} ApplyControlKeepsAgreement(
    known: map<KnownCameraControl, CameraControl>,
    values: map<KnownCameraControl, ControlValueSetter>,
    id: KnownCameraControl,
    v: ControlValueSetter)
    requires KindsAgree(known, values)
    ensures ApplyControl(values, id, v).Ok? ==> KindsAgree(known, ApplyControl(values, id, v).value)
  {
    if ApplyControl(values, id, v).Ok? {
      WriteKeepsShape(known, values, id, v);
    }
  }

  /** The opened camera (`CallbackCamera`); only its control values are modelled. */
  class CallbackCamera {
    var values: map<KnownCameraControl, ControlValueSetter>

    constructor (initial: map<KnownCameraControl, ControlValueSetter>)
      ensures values == initial
    {
      values := initial;
    }

    method SetCameraControl(id: KnownCameraControl, v: ControlValueSetter) returns (r: Result<(), NokhwaError>)
      modifies this
      ensures var applied := ApplyControl(old(values), id, v);
        && r.Ok? == applied.Ok?
        && (r.Err? ==> r.error == applied.error && values == old(values))
        && (r.Ok? ==> values == applied.value)
    {
      var applied := ApplyControl(values, id, v);
      match applied
      case Ok(updated) =>
        values := updated;
        r := Ok(());
      case Err(e) =>
        r := Err(e);
    }
  }

  datatype WorkerStatus = Running | Dead(message: string)

  /** The spawned thread: it owns the receiving end of the operation queue and
      the opened camera. */
  class CaptureWorker {
    const operations: Channel<CameraOperation>
    const camera: CallbackCamera
    var status: WorkerStatus

    constructor (operations: Channel<CameraOperation>, camera: CallbackCamera)
      ensures this.operations == operations && this.camera == camera && status == Running
    {
      this.operations := operations;
      this.camera := camera;
      status := Running;
    }

    /** One pass of the worker's `loop`: take at most one pending operation and
        apply it, then pull the latest frame. A refused control or a failed
        frame pull panics, which ends the thread; a refused control panics
        before the frame is pulled. `frameOk` is what `last_frame` reports. */
    method Step(frameOk: bool) returns (pulledFrame: bool)
      requires status == Running && operations.Valid()
      modifies this, operations, camera
      ensures operations.Valid()
      // at most one operation is consumed
      ensures operations.queue == if old(operations.queue) == [] then [] else old(operations.queue)[1..]
      ensures old(operations.queue) == [] ==>
        && camera.values == old(camera.values)
        && pulledFrame
      ensures old(operations.queue) != [] ==>
        var op := old(operations.queue)[0];
        var applied := ApplyControl(old(camera.values), op.id, op.control);
        && camera.values == (if applied.Ok? then applied.value else old(camera.values))
        && pulledFrame == applied.Ok?
      ensures status == if pulledFrame && frameOk then Running else Dead(CAMERA_ERROR)
    {
      var op := operations.TryRecv();
      if op.Some? {
        match op.value
        case Control(id, control) =>
          var r := camera.SetCameraControl(id, control);
          if r.Err? {
            status := Dead(CAMERA_ERROR);
            pulledFrame := false;
            return;
          }
      }
      pulledFrame := true;
      if !frameOk {
        status := Dead(CAMERA_ERROR);
      }
    }
  }

  /** The callback the camera library calls with each captured buffer: decode
      to RGBA and send the frame on the frame channel. `decoded` is the
      decoder's result; its `unwrap()` panics on a failed decode, which ends
      the callback before anything is sent. */
  method FrameCallback(frames: Channel<RgbaImage>, decoded: Option<RgbaImage>) returns (r: Outcome<()>)
    requires frames.Valid() && frames.capacity.None?
    modifies frames
    ensures frames.Valid()
    ensures r.Done? <==> decoded.Some?
    ensures r.Panicked? <==> decoded.None?
    ensures r.Panicked? ==> r.message == UNWRAP_ERR
    ensures frames.queue == if decoded.Some? then old(frames.queue) + [decoded.value] else old(frames.queue)
  {
    if decoded.None? {
      r := Panicked(UNWRAP_ERR);
      return;
    }
    frames.Send(decoded.value);
    r := Done(());
  }

  // ---------------------------------------------------------------------------
  // The camera component

  class BackgroundCamera {
    const imageRx: Channel<RgbaImage>
    const operationTx: Channel<CameraOperation>
    const knownControls: map<KnownCameraControl, CameraControl>
    var controls: map<KnownCameraControl, ControlValueSetter>

    ghost predicate Valid()
      reads this, operationTx, imageRx
    {
      && imageRx.Valid() && imageRx.capacity.None?
      && operationTx.Valid() && operationTx.capacity == Some(1)
      && KindsAgree(knownControls, controls)
    }

    constructor (imageRx: Channel<RgbaImage>, operationTx: Channel<CameraOperation>, known: map<KnownCameraControl, CameraControl>)
      requires imageRx.Valid() && imageRx.capacity.None?
      requires operationTx.Valid() && operationTx.capacity == Some(1)
      ensures Valid()
      ensures this.imageRx == imageRx && this.operationTx == operationTx
      ensures knownControls == known && controls == DeriveControls(known)
    {
      this.imageRx := imageRx;
      this.operationTx := operationTx;
      knownControls := known;
      controls := DeriveControls(known);
      DerivedControlsAgree(known);
    }

    /** `get_mut_bool_control`, read side: the value behind the handle, if any. */
    method GetMutBoolControl(id: KnownCameraControl) returns (r: Option<bool>)
      ensures r == BoolControl(controls, id)
    {
      if id in controls && controls[id].Boolean? {
        r := Some(controls[id].b);
      } else {
        r := None;
      }
    }

    /** `get_mut_i64_control`, read side. */
    method GetMutI64Control(id: KnownCameraControl) returns (r: Option<i64>)
      ensures r == I64Control(controls, id)
    {
      if id in controls && controls[id].Integer? {
        r := Some(controls[id].i);
      } else {
        r := None;
      }
    }

    /** `get_mut_f64_control`, read side. */
    method GetMutF64Control(id: KnownCameraControl) returns (r: Option<F64>)
      ensures r == F64Control(controls, id)
    {
      if id in controls && controls[id].Float? {
        r := Some(controls[id].f);
      } else {
        r := None;
      }
    }

    /** `*get_mut_bool_control(id).unwrap() = v`: a write through the handle,
        which exists only when the accessor returned one. */
    method WriteBool(id: KnownCameraControl, v: bool)
      requires Valid() && BoolControl(controls, id).Some?
      modifies this
      ensures Valid()
      ensures controls == old(controls)[id := Boolean(v)]
    {
      WriteKeepsShape(knownControls, controls, id, Boolean(v));
      controls := controls[id := Boolean(v)];
    }

    /** `*get_mut_i64_control(id).unwrap() = v`. */
    method WriteI64(id: KnownCameraControl, v: i64)
      requires Valid() && I64Control(controls, id).Some?
      modifies this
      ensures Valid()
      ensures controls == old(controls)[id := Integer(v)]
    {
      WriteKeepsShape(knownControls, controls, id, Integer(v));
      controls := controls[id := Integer(v)];
    }

    /** `*get_mut_f64_control(id).unwrap() = v`. */
    method WriteF64(id: KnownCameraControl, v: F64)
      requires Valid() && F64Control(controls, id).Some?
      modifies this
      ensures Valid()
      ensures controls == old(controls)[id := Float(v)]
    {
      WriteKeepsShape(knownControls, controls, id, Float(v));
      controls := controls[id := Float(v)];
    }

    /** What the settings panel does after a change: `try_send` the entry's
        current value; with an operation already pending the request is dropped. */
    method RequestControl(id: KnownCameraControl) returns (sent: bool)
      requires Valid() && id in controls
      modifies operationTx
      ensures Valid()
      ensures sent <==> old(operationTx.queue) == []
      ensures operationTx.queue == if sent then [Control(id, controls[id])] else old(operationTx.queue)
    {
      sent := operationTx.TrySend(Control(id, controls[id]));
    }
  }

  /** The objects `new` returns or spawns. */
  datatype Spawned = Spawned(camera: BackgroundCamera, worker: CaptureWorker)

  /** `BackgroundCamera::new`. `query` is what the enumeration returned;
      `open` is what the camera library reports for the chosen device and
      format: its known controls, or `None` when opening, listing the controls
      or starting the stream fails (each an `unwrap()` that panics). */
  method New(
    query: Result<seq<CameraInfo>, string>,
    index: Option<CameraIndex>,
    request: Option<RequestedFormatType>,
    open: (CameraIndex, RequestedFormat) -> Option<map<KnownCameraControl, CameraControl>>
  ) returns (r: Outcome<Spawned>)
    ensures Configure(query, index, request).Failed? ==> r == Failed(Configure(query, index, request).error)
    ensures Configure(query, index, request).Panicked? ==> r == Panicked(CAMERA_NOT_EXIST)
    ensures Configure(query, index, request).Done? ==>
      var setup := Configure(query, index, request).value;
      match open(setup.device, setup.format)
      case None => r == Panicked(UNWRAP_ERR)
      case Some(known) =>
        && r.Done?
        && var cam := r.value.camera;
        && var worker := r.value.worker;
        && fresh(cam) && fresh(worker) && fresh(cam.imageRx) && fresh(cam.operationTx) && fresh(worker.camera)
        && cam.Valid()
        && cam.knownControls == known
        && cam.controls == DeriveControls(known)
        && cam.imageRx.queue == [] && cam.operationTx.queue == []
        && worker.operations == cam.operationTx
        && worker.camera.values == DeriveControls(known)
        && KindsAgree(known, worker.camera.values)
        && worker.status == Running
  {
    var setup := Configure(query, index, request);
    if setup.Failed? {
      r := Failed(setup.error);
      return;
    } else if setup.Panicked? {
      r := Panicked(setup.message);
      return;
    }
    var imageRx := new Channel<RgbaImage>.Unbounded();
    var operationTx := new Channel<CameraOperation>.Bounded(1);
    var listed := open(setup.value.device, setup.value.format);
    if listed.None? {
      r := Panicked(UNWRAP_ERR);
      return;
    }
    DerivedControlsAgree(listed.value);
    var device := new CallbackCamera(DeriveControls(listed.value));
    var worker := new CaptureWorker(operationTx, device);
    var cam := new BackgroundCamera(imageRx, operationTx, listed.value);
    r := Done(Spawned(cam, worker));
  }

  /** A control changed in the panel, through the accessor of its kind (bool,
      i64 or f64), reaches the camera after one worker iteration when the queue
      was idle: the panel's store and the camera hold the new value and the
      queue is empty again. The camera accepts the value because `ApplyControl`
      accepts every value of the entry's kind; the worker then survives exactly
      when the frame pull succeeds (`frameOk`). */
  method ControlRoundTrip(cam: BackgroundCamera, worker: CaptureWorker, id: KnownCameraControl, v: ControlValueSetter, frameOk: bool)
    requires cam.Valid() && worker.status == Running
    requires worker.operations == cam.operationTx && cam.operationTx.queue == []
    requires KindsAgree(cam.knownControls, worker.camera.values)
    requires id in cam.controls && KindOf(v) == KindOf(cam.controls[id]) && !v.Other?
    modifies cam, cam.operationTx, worker, worker.camera
    ensures cam.Valid() && cam.controls == old(cam.controls)[id := v]
    ensures worker.camera.values == old(worker.camera.values)[id := v]
    ensures KindsAgree(cam.knownControls, worker.camera.values)
    ensures cam.operationTx.queue == []
    ensures worker.status == if frameOk then Running else Dead(CAMERA_ERROR)
  {
    if v.Boolean? {
      cam.WriteBool(id, v.b);
    } else if v.Integer? {
      cam.WriteI64(id, v.i);
    } else {
      cam.WriteF64(id, v.f);
    }
    ApplyControlKeepsAgreement(cam.knownControls, worker.camera.values, id, v);
    var sent := cam.RequestControl(id);
    var pulled := worker.Step(frameOk);
  }
}

=== FILE: channels.dfy ===
/** The flume channels that connect the capture side and the render side.
    One object stands for both ends of a channel: `queue` holds the messages
    sent and not yet received, oldest first. */
module Channels {
  import opened Wrappers

  class Channel<T> {
    var queue: seq<T>
    /** `None` for `unbounded()`, `Some(n)` for `bounded(n)`. */
    const capacity: Option<nat>

    ghost predicate Valid()
      reads this
    {
      capacity.Some? ==> |queue| <= capacity.value
    }

    /** `flume::unbounded()`. */
    constructor Unbounded()
      ensures Valid() && queue == [] && capacity == None
    {
      queue := [];
      capacity := None;
    }

    /** `flume::bounded(n)`. */
    constructor Bounded(n: nat)
      ensures Valid() && queue == [] && capacity == Some(n)
    {
      queue := [];
      capacity := Some(n);
    }

    /** `Sender::send` on an unbounded channel never blocks and never rejects. */
    method Send(x: T)
      requires Valid() && capacity.None?
      modifies this
      ensures Valid()
      ensures queue == old(queue) + [x]
    {
      queue := queue + [x];
    }

    /** `Sender::try_send`: enqueues only if there is room, otherwise drops `x`. */
    method TrySend(x: T) returns (sent: bool)
      requires Valid()
      modifies this
      ensures Valid()
      ensures sent <==> old(capacity.None? || |queue| < capacity.value)
      ensures queue == if sent then old(queue) + [x] else old(queue)
    {
      sent := capacity.None? || |queue| < capacity.value;
      if sent {
        queue := queue + [x];
      }
    }

    /** `Receiver::try_recv`: takes the oldest message, if any, without blocking. */
    method TryRecv() returns (r: Option<T>)
      requires Valid()
      modifies this
      ensures Valid()
      ensures r == if old(queue) == [] then None else Some(old(queue)[0])
      ensures queue == if old(queue) == [] then [] else old(queue)[1..]
    {
      if queue == [] {
        r := None;
      } else {
        r := Some(queue[0]);
        queue := queue[1..];
      }
    }

    /** `Receiver::drain`: takes every pending message, in the order sent. */
    method Drain() returns (items: seq<T>)
      requires Valid()
      modifies this
      ensures Valid()
      ensures items == old(queue) && queue == []
    {
      items := queue;
      queue := [];
    }
  }
}

=== FILE: pixels.dfy ===
/** Machine integers and the RGBA frame type shared by the capture side and the
    render side (the `image` crate's `RgbaImage`). */
module Pixels {

  type byte = x: int | 0 <= x < 0x100
  type u16 = x: int | 0 <= x < 0x1_0000
  type u32 = x: int | 0 <= x < 0x1_0000_0000

  const U32_MODULUS: int := 0x1_0000_0000

  /** Bytes per RGBA pixel. */
  const CHANNELS: nat := 4

  /** An RGBA8 pixel buffer: `data` holds the pixels row by row, four bytes each. */
  datatype RgbaImage = RgbaImage(width: u32, height: u32, data: seq<byte>)

  /** The buffer invariant the image crate keeps: exactly four bytes per pixel. */
  ghost predicate WellFormed(img: RgbaImage) {
    |img.data| == CHANNELS * img.width * img.height
  }

  /** `RgbaImage::new(width, height)`: an all-zero (transparent black) image. */
  function Blank(width: u32, height: u32): (img: RgbaImage)
    ensures WellFormed(img)
    ensures img.width == width && img.height == height
    ensures forall i :: 0 <= i < |img.data| ==> img.data[i] == 0
  {
    RgbaImage(width, height, seq(CHANNELS * width * height, _ => 0))
  }

  /** The background image the plugin installs before any frame arrives: 640 x 480. */
  function InitialBackgroundImage(): (img: RgbaImage)
    ensures WellFormed(img) && img.width == 640 && img.height == 480
  {
    Blank(640, 480)
  }

  /** A `u32` product as Rust computes it in a release build: wrapping modulo 2^32. */
  function WrappingMulU32(a: u32, b: u32): (r: u32)
    ensures a * b < U32_MODULUS ==> r == a * b
    ensures (a * b - r) % U32_MODULUS == 0
  {
    (a * b) % U32_MODULUS
  }
}

=== FILE: wrappers.dfy ===
/** Option and Result, as the Rust code uses them. */
module Wrappers {

  datatype Option<+T> = None | Some(value: T)

  datatype Result<+T, +E> = Ok(value: T) | Err(error: E)

  /** `Iterator::last` on a finite sequence. */
  function Last<T>(s: seq<T>): (r: Option<T>)
    ensures r.None? <==> s == []
    ensures r.Some? ==> r.value == s[|s| - 1]
  {
    if s == [] then None else Some(s[|s| - 1])
  }
}
